=== FILE: README.md ===
# DateExtensions, modelled in Dafny

`DateExtensions.swift` is a calendar-arithmetic utility layer over Foundation's `Date` and `DateComponents`. It provides:

- `+`, `-` and prefix `-` on component sets;
- `Date ± DateComponents`;
- "Ruby-like" integer converters (`5.days`, `2.weeks`);
- `normalize` (truncate to the start of the day);
- `diff`, an order-independent year/month/day difference;
- `offset(n)`, which gives `n` days after the start of the day;
- the seven `…From` single-unit deltas;
- `offsetFrom`, which renders the coarsest positive delta as a short label such as `"3d"` or `"2M"`.

The project models that logic with immutable datatypes and pure functions:

| file | module | models |
|---|---|---|
| `wrappers.dfy` | `Wrappers` | `Option`, for calendar results that may be missing and for parsing |
| `components.dfy` | `Components` | `DateComponents` as six `Field = Undef \| Val(int)` fields; `combineComponents`, `+`, `-`, prefix `-` |
| `converters.dfy` | `Converters` | the `Int` extension: `seconds` … `years` and their singular aliases |
| `decimal.dfy` | `Decimal` | the decimal rendering of an `Int` in string interpolation, with its parser |
| `calendar.dfy` | `HostCalendar` | `Instant`, its order, and the calendar as a value of function-valued fields |
| `label.dfy` | `Label` | the `offsetFrom` cascade, as a pure function of the seven unit deltas |
| `dates.dfy` | `Dates` | `Date ± DateComponents`, `normalize`, `diff`, `offset`, `yearsFrom` … `secondsFrom`, `offsetFrom` |

`Undef` stands for the `NSDateComponentUndefined` sentinel that the code compares against. An undefined field contributes 0 to `Combine`. `Combine` always returns all six fields defined. `Negate` keeps undefined fields undefined.

Foundation's `Calendar` is not modelled. It is a `HostCalendar.Calendar` value that is passed in. Its fields stand for:

- `fieldsOf`: the calendar fields of an instant. `normalize` keeps only year, month and day from them (`Components.DayFields`, the request `[.year, .month, .day]`), so hour, minute and second never reach `compose`;
- `compose`: `date(from:)`;
- `byAdding`: `date(byAdding:to:)`;
- `ymdDelta`: the `.matchFirst` components from one instant to another. `diff` requests only year, month and day, so `Dates.Diff` keeps just those fields of it (`Components.DayFields`);
- `unitDelta`: the single-unit `components(_:from:to:options:)`.

Results that hold only for some calendars take the law they need as a `requires`. The laws are predicates: `StartOfDayStable`, `ForwardDeltasNonNegative`, `NoDeltaToSelf` and `BackwardDeltasNonPositive` (no positive units from an instant to one that is not later). The model does not assume that reversing the two instants negates a delta: with month-end clamping (Jan 31 and Feb 28, say) the month counts in the two directions need not be negatives of each other.

The code force-unwraps `date(from:)` and `date(byAdding:to:)`. The model returns `Option` at those points instead: `None` stands for the failure where the Swift code traps. `Plus`, `PlusFlipped`, `Minus`, `Normalize`, `Offset` and `UnitsFrom`/`YearsFrom` … `SecondsFrom` are one-line delegations to the calendar. Their properties are stated in the lemmas below.

`1.days + 1.days` is not the same set as `2.days`: the sum has all six fields defined (day 2 and five defined zeros), so it equals `2.days` only in effect. `Converters.AddDays` proves both halves.

## Model

| member | source | states |
|---|---|---|
| Components.Combine | DateExtensions.swift:15-36 | every result field is defined and equals eff(lhs) + eff(rhs) × multiplier, where an undefined field counts as 0 |
| Components.Add | DateExtensions.swift:59-62 | `+` is the field-wise sum of effective values, with every field defined |
| Components.Subtract | DateExtensions.swift:82-85 | `-` is the field-wise difference of effective values, with every field defined |
| Components.Negate | DateExtensions.swift:102-113 | a field is undefined in the result exactly when it is undefined in the input; a defined field is negated |
| Components.OnlyInjective | DateExtensions.swift:201-349 | single-field sets are equal exactly when they define the same field to the same amount |
| Components.DayFields | DateExtensions.swift:375 | the `[.year, .month, .day]` request keeps year, month and day and leaves hour, minute and second undefined |
| Components.AddCommutes | DateExtensions.swift:59-62 | `a + b == b + a` |
| Components.AddAssociates | DateExtensions.swift:59-62 | `(a + b) + c == a + (b + c)` |
| Components.AddEmptyFills | DateExtensions.swift:20-35 | adding the all-undefined set turns undefined fields into defined zeros and changes nothing else |
| Components.SubtractSelfIsZero | DateExtensions.swift:82-85 | `a - a` has all six fields defined and 0, even where `a` is undefined |
| Components.AddNegationIsZero | DateExtensions.swift:59-113 | `a + (-a)` has all six fields defined and 0 |
| Components.SubtractIsAddNegation | DateExtensions.swift:82-113 | `a - b == a + (-b)` as values |
| Components.NegateInvolution | DateExtensions.swift:102-113 | `-(-a) == a`, with undefined fields preserved |
| Components.NegateEmpty | DateExtensions.swift:102-113 | negating the all-undefined set gives the all-undefined set |
| Components.NegateDifference | DateExtensions.swift:82-113 | `-(a - b) == b - a` |
| Components.SubtractUndoesAdd | DateExtensions.swift:59-85 | `(a + b) - b` is `a` with its undefined fields made defined zeros, so it is equivalent to `a` |
| Components.CombineNeverEmpty | DateExtensions.swift:20-35 | a combination never equals the all-undefined set |
| Converters.Seconds | DateExtensions.swift:201-205 | defines `second` to `n` and leaves the other five fields undefined |
| Converters.Second | DateExtensions.swift:214-216 | the singular alias gives the same set as `seconds` |
| Converters.Minutes | DateExtensions.swift:225-229 | defines `minute` to `n`, the rest undefined |
| Converters.Minute | DateExtensions.swift:238-240 | same set as `minutes` |
| Converters.Hours | DateExtensions.swift:249-253 | defines `hour` to `n`, the rest undefined |
| Converters.Hour | DateExtensions.swift:262-264 | same set as `hours` |
| Converters.Days | DateExtensions.swift:273-277 | defines `day` to `n`, the rest undefined |
| Converters.Day | DateExtensions.swift:286-288 | same set as `days` |
| Converters.Weeks | DateExtensions.swift:297-301 | defines `day` to `7 * n`, the rest undefined |
| Converters.Week | DateExtensions.swift:310-312 | same set as `weeks` |
| Converters.Months | DateExtensions.swift:321-325 | defines `month` to `n`, the rest undefined |
| Converters.Month | DateExtensions.swift:334-336 | same set as `months` |
| Converters.Years | DateExtensions.swift:345-349 | defines `year` to `n`, the rest undefined |
| Converters.Year | DateExtensions.swift:358-360 | same set as `years` |
| Converters.WeeksAreSevenDays | DateExtensions.swift:297-301 | `n.weeks == (7 * n).days` |
| Converters.ConverterOf | DateExtensions.swift:201-349 | the plural converter for a field defines that field to `n` |
| Converters.ConvertersAreDistinct | DateExtensions.swift:201-349 | for every pair of the six plural converters (`weeks` aside, being `days` of `7 * n`), two results are equal exactly when unit and amount are equal |
| Converters.AddDays | DateExtensions.swift:20-35 | `a.days + b.days` is equivalent to `(a + b).days` but is not equal to it, because every field of a sum is defined |
| Converters.NegateDays | DateExtensions.swift:102-113 | `-(n.days) == (-n).days` and `-(n.weeks) == (-n).weeks` |
| Decimal.NatToString | DateExtensions.swift:535-541 | the rendering of a natural number is a non-empty run of digits with no leading zero, and starts with '0' only for 0 |
| Decimal.IntToString | DateExtensions.swift:535-541 | an integer's rendering starts with '-' exactly when it is negative, and is canonical digits otherwise |
| Decimal.NatToStringValue | DateExtensions.swift:535-541 | the digits rendered for `n` have the value `n` |
| Decimal.ValueToString | DateExtensions.swift:535-541 | a canonical run of digits is the rendering of its own value |
| Decimal.IntToStringParses | DateExtensions.swift:535-541 | parsing the rendering of `n` gives back `n` |
| Decimal.ParseIntRenders | DateExtensions.swift:535-541 | any string that parses to `n` is exactly the rendering of `n` |
| Decimal.IntToStringInjective | DateExtensions.swift:535-541 | distinct integers render to distinct strings |
| HostCalendar.Before | DateExtensions.swift:394 | `a` is strictly before `b`: the `.orderedAscending` test that picks `diff`'s branch |
| HostCalendar.Earlier | DateExtensions.swift:394-397 | the earlier of two instants is one of them and is not after either |
| HostCalendar.Later | DateExtensions.swift:394-397 | the later of two instants is one of them and is not before either |
| HostCalendar.DayOf | DateExtensions.swift:375 | the record `normalize` hands to `compose` has hour, minute and second undefined |
| Label.CascadeCoversAll | DateExtensions.swift:534-543 | the cascade in the order years, months, weeks, days, hours, minutes, seconds visits all seven deltas |
| Label.OffsetLabel | DateExtensions.swift:534-543 | the label is empty exactly when no delta in the cascade is strictly positive |
| Label.OffsetLabelIsCoarsest | DateExtensions.swift:534-543 | when position `i` holds the coarsest positive delta, the label is that delta in decimal followed by its unit letter, so no finer unit is reported |
| Label.CoarsestPositiveExists | DateExtensions.swift:534-543 | if some delta is positive, some position is the coarsest positive one |
| Label.CoarsestPositiveUnique | DateExtensions.swift:534-543 | the coarsest positive position is unique |
| Label.LettersDistinct | DateExtensions.swift:535-541 | the seven unit letters are pairwise distinct; months use 'M' and minutes use 'm' |
| Label.RenderParses | DateExtensions.swift:535-541 | an amount followed by a unit letter reads back as that amount and unit |
| Label.LabelRoundTrip | DateExtensions.swift:534-543 | a non-empty label reads back as the coarsest positive delta and its unit |
| Label.ParseLabelRenders | DateExtensions.swift:535-541 | any string that reads as a label is the rendering of what it reads as |
| Label.Letter | DateExtensions.swift:535-541 | the unit letter, `y M w d h m s`, with 'M' for months and 'm' for minutes |
| Label.Render | DateExtensions.swift:535-541 | the decimal rendering of `n` followed by the unit's letter: at least two characters, ending in the letter |
| Label.OneHourScenario | DateExtensions.swift:539 | an hour delta of 1 with non-positive year, month, week and day deltas gives "1h", whatever the minutes and seconds |
| Label.YearsWin | DateExtensions.swift:535 | a positive year delta is reported, the label being its decimal rendering followed by 'y', whatever the finer deltas; it reads back as that year count |
| Dates.Diff | DateExtensions.swift:390-400 | the difference exists exactly when both days normalize; it is the year, month and day fields of the calendar delta from the earlier normalized instant to the later one, with hour, minute and second undefined |
| Dates.DiffSameDayIsZero | DateExtensions.swift:390-400 | if the calendar gives a zero delta from an instant to itself, two instants on the same day differ by zero years, months and days, with the finer fields undefined |
| Dates.DiffSymmetric | DateExtensions.swift:390-400 | `a.diff(b) == b.diff(a)`, equal normalized instants included |
| Dates.DiffSameDay | DateExtensions.swift:394-398 | two instants on the same day differ by the year, month and day fields of the delta from that day to itself |
| Dates.DiffNonNegative | DateExtensions.swift:390-400 | if forward deltas are non-negative, every field of the difference is non-negative whichever argument is later |
| Dates.DeltasFrom | DateExtensions.swift:429-521 | each of the seven deltas is the whole number of that unit measured from `date` to `self` |
| Dates.OffsetFrom | DateExtensions.swift:534-543 | the label is empty exactly when no unit shows `self` strictly after `date` |
| Dates.OffsetFromReportsCoarsest | DateExtensions.swift:534-543 | the label is the coarsest positive single-unit delta from `date` to `self` rendered with its unit letter, and it reads back as that delta and unit |
| Dates.OffsetFromSelf | DateExtensions.swift:534-543 | if an instant is zero units from itself, its label against itself is empty |
| Dates.OffsetFromNotLater | DateExtensions.swift:534-543 | if no unit is positive from an instant to one that is not later, then `self` has an empty label against any `date` it is not after |
| Dates.Plus | DateExtensions.swift:136-139 | calendar delegation (`date(byAdding:to:)`, `None` for the trap), no contract of its own; its laws are the `Dates` lemmas below |
| Dates.PlusFlipped | DateExtensions.swift:159-162 | delegation to `Plus` with the arguments swapped; law: `Dates.PlusCommutes` |
| Dates.Minus | DateExtensions.swift:184-187 | `Plus` of the negated set; laws: `Dates.MinusAddsNegation`, `Dates.MinusNegationIsPlus`, `Dates.MinusDifference` |
| Dates.Normalize | DateExtensions.swift:373-377 | calendar delegation (`date(from:)` of the day fields, `None` for the trap); laws: `Dates.NormalizeIdempotent`, `Dates.NormalizeIgnoresTimeOfDay` |
| Dates.Offset | DateExtensions.swift:413-416 | `Plus` of `n` days on the normalized instant; laws: `Dates.OffsetOfNormalized`, `Dates.OffsetIgnoresTimeOfDay` |
| Dates.UnitsFrom | DateExtensions.swift:429-521 | calendar delegation: whole units from `date` to `self`; collected and stated in `Dates.DeltasFrom` |
| Dates.YearsFrom | DateExtensions.swift:429-431 | `UnitsFrom` for years; stated in `Dates.DeltasFrom` |
| Dates.MonthsFrom | DateExtensions.swift:444-446 | `UnitsFrom` for months; stated in `Dates.DeltasFrom` |
| Dates.WeeksFrom | DateExtensions.swift:459-461 | `UnitsFrom` for `.weekOfYear`; stated in `Dates.DeltasFrom` |
| Dates.DaysFrom | DateExtensions.swift:474-476 | `UnitsFrom` for days; stated in `Dates.DeltasFrom` |
| Dates.HoursFrom | DateExtensions.swift:489-491 | `UnitsFrom` for hours; stated in `Dates.DeltasFrom` |
| Dates.MinutesFrom | DateExtensions.swift:504-506 | `UnitsFrom` for minutes; stated in `Dates.DeltasFrom` |
| Dates.SecondsFrom | DateExtensions.swift:519-521 | `UnitsFrom` for seconds; stated in `Dates.DeltasFrom` |
| Dates.PlusCommutes | DateExtensions.swift:159-162 | `components + date == date + components` |
| Dates.MinusAddsNegation | DateExtensions.swift:184-187 | `date - components == date + (-components)` |
| Dates.MinusNegationIsPlus | DateExtensions.swift:184-187 | `date - (-c) == date + c`, because negation is an involution |
| Dates.MinusDifference | DateExtensions.swift:184-187 | `date - (a - b) == date + (b - a)` |
| Dates.NormalizeIdempotent | DateExtensions.swift:373-377 | if recomposing the day fields stays on the same day, normalizing twice equals normalizing once |
| Dates.OffsetOfNormalized | DateExtensions.swift:413-416 | if recomposing the day fields stays on the same day, offsetting the start of the day equals offsetting the instant |
| Dates.NormalizeIgnoresTimeOfDay | DateExtensions.swift:373-377 | instants whose year, month and day fields agree normalize to the same instant, whatever their time of day |
| Dates.OffsetIgnoresTimeOfDay | DateExtensions.swift:413-416 | instants on the same day have the same offsets, so the time of day is dropped |

## Left out

- Foundation `Calendar` semantics are not modelled: month lengths, leap years, time zones, daylight saving and the `.matchFirst` policy. Each calendar call is a field of a `Calendar` parameter, because its source is not part of this model.
- Concrete results of `yearsFrom` … `secondsFrom` and of `diff` are not modelled, because each is a single calendar-library call. The label logic takes the seven deltas as inputs.
- Floating-point `Date` values are not modelled. An instant is an integer count of seconds, ordered by `<`, standing in for `compare(_:) == .orderedAscending`.
- Swift's fixed-width `Int` overflow traps in `+`, `*`, `7 * n` and prefix `-` (negating `Int.min`) are not modelled. All arithmetic is on unbounded integers.
- The force-unwraps of optional component fields in `combineComponents` and prefix `-` are not modelled. With `nil` for an unset field, they would trap. The model gives an unset field the sentinel meaning the code compares against.
- `DateComponents` fields other than second, minute, hour, day, month and year (era, weekday, weekOfYear, nanosecond, calendar, time zone and the rest) are not modelled. `combineComponents` and prefix `-` start from an empty set and copy only these six, so they drop the others, while `date + c` passes all of `c` to the calendar. Hence `-(-a) == a` (`Components.NegateInvolution`) and `d - (-c) == d + c` (`Dates.MinusNegationIsPlus`) hold in the Swift code only for sets that use just these six fields.
- `NSDateComponentUndefined` as an ordinary value is not modelled. A field explicitly set to that value would be treated as undefined; in the model `Val(n)` is always defined.
- Swift string interpolation is modelled only as the plain decimal rendering of an integer.
- `Plus`, `Minus`, `Normalize` and `Offset` state no laws of their own beyond those listed. Laws like `(d + c) - c == d` depend on the calendar, and calendar edge effects can break them: Jan 31 + 1 month - 1 month need not be Jan 31.

=== FILE: calendar.dfy ===
/** The host calendar the utility layer delegates to, kept abstract: an
    instant is a point on a time line, and every calendar operation the code
    calls is a function-valued field of `Calendar`, passed in as a parameter.
    Month lengths, leap years, time zones and daylight saving all live inside
    those functions and are not modelled. Laws a calendar may satisfy are
    stated as predicates, and a result that relies on one says so in its
    `requires`. */
module HostCalendar {

  import opened Wrappers
  import C = Components

  /** An absolute point in time, as a whole number of seconds since a fixed
      reference instant. */
  datatype Instant = Instant(sinceReference: int)

  /** `a` comes strictly before `b` (the "ordered ascending" comparison). */
  predicate Before(a: Instant, b: Instant)
  {
    a.sinceReference < b.sinceReference
  }

  /** The earlier of two instants. */
  function Earlier(a: Instant, b: Instant): (r: Instant)
    ensures r == a || r == b
    ensures !Before(a, r) && !Before(b, r)
  {
    if Before(b, a) then b else a
  }

  /** The later of two instants. */
  function Later(a: Instant, b: Instant): (r: Instant)
    ensures r == a || r == b
    ensures !Before(r, a) && !Before(r, b)
  {
    if Before(b, a) then a else b
  }

  /** The calendar units a single-unit delta can be asked for: the six
      component fields plus week-of-year. */
  datatype Unit = Year | Month | WeekOfYear | Day | Hour | Minute | Second

  /** The calendar operations the utility layer calls.
      - `fieldsOf`: the calendar fields of an instant (the code asks only for
        year, month and day, see `Components.DayFields`);
      - `compose`: the instant a component set names, if it names one;
      - `byAdding`: the instant a component set after a given instant, if any;
      - `ymdDelta(from, to)`: the year/month/day difference, "match first" policy;
      - `unitDelta(u, from, to)`: the whole number of units `u` from `from` to `to`. */
  datatype Calendar = Calendar(
    fieldsOf: Instant -> C.Components,
    compose: C.Components -> Option<Instant>,
    byAdding: (C.Components, Instant) -> Option<Instant>,
    ymdDelta: (Instant, Instant) -> C.Components,
    unitDelta: (Unit, Instant, Instant) -> int)

  /** The day an instant falls on: its year, month and day fields. */
  function DayOf(cal: Calendar, x: Instant): (r: C.Components)
    ensures r.hour == C.Undef && r.minute == C.Undef && r.second == C.Undef
  {
    C.DayFields(cal.fieldsOf(x))
  }

  /** Recomposing the day fields of an instant gives an instant on that same day. */
  ghost predicate StartOfDayStable(cal: Calendar)
  {
    forall x ::
      cal.compose(DayOf(cal, x)).Some? ==> DayOf(cal, cal.compose(DayOf(cal, x)).value) == DayOf(cal, x)
  }

  /** Every field of a component set contributes a non-negative amount. */
  ghost predicate NonNegative(c: C.Components)
  {
    forall u :: C.Eff(C.Get(c, u)) >= 0
  }

  /** Measured forward in time, the year/month/day difference is non-negative. */
  ghost predicate ForwardDeltasNonNegative(cal: Calendar)
  {
    forall lo, hi :: !Before(hi, lo) ==> NonNegative(cal.ymdDelta(lo, hi))
  }

  /** From an instant to itself there are no whole units of any kind. */
  ghost predicate NoDeltaToSelf(cal: Calendar)
  {
    forall u, x :: cal.unitDelta(u, x, x) == 0
  }

  /** From an instant to itself the year/month/day delta is zero in every field. */
  ghost predicate NoYmdDeltaToSelf(cal: Calendar)
  {
    forall x :: cal.ymdDelta(x, x) == C.Zero
  }

  /** Sign law: from an instant to one that is not later there are no
      positive whole units of any kind. (Reversing the instants need not
      negate a delta: month-end clamping breaks that.) */
  ghost predicate BackwardDeltasNonPositive(cal: Calendar)
  {
    forall u, x, y :: !Before(x, y) ==> cal.unitDelta(u, x, y) <= 0
  }
}

=== FILE: components.dfy ===
/** A set of calendar components (second, minute, hour, day, month, year),
    each either undefined or holding an integer, and the arithmetic on them:
    field-wise combination with a multiplier, addition, subtraction and
    undefined-preserving negation. */
module Components {

  /** One field. `Undef` stands for the "undefined component" sentinel the
      calendar library uses for an unset field. */
  datatype Field = Undef | Val(v: int)

  /** The six fields a component set carries. */
  datatype Components = Components(
    second: Field,
    minute: Field,
    hour: Field,
    day: Field,
    month: Field,
    year: Field)

  /** Names of the six fields, so that laws can be stated once for all of them.
      (The calendar's delta units, `HostCalendar.Unit`, add week-of-year, which
      is not a field of this set.) */
  datatype FieldName = Second | Minute | Hour | Day | Month | Year

  function Get(c: Components, u: FieldName): Field
  {
    match u
    case Second => c.second
    case Minute => c.minute
    case Hour => c.hour
    case Day => c.day
    case Month => c.month
    case Year => c.year
  }

  /** The value a field contributes to arithmetic: an undefined field counts as 0. */
  function Eff(f: Field): int
  {
    if f.Undef? then 0 else f.v
  }

  /** The component set with every field undefined. */
  const Empty := Components(Undef, Undef, Undef, Undef, Undef, Undef)

  /** The component set with every field defined to 0. */
  const Zero := Components(Val(0), Val(0), Val(0), Val(0), Val(0), Val(0))

  ghost predicate AllDefined(c: Components)
  {
    forall u :: Get(c, u).Val?
  }

  /** Two component sets are equivalent when every field contributes the same
      value to arithmetic, whether or not it is defined. */
  ghost predicate Equivalent(a: Components, b: Components)
  {
    forall u :: Eff(Get(a, u)) == Eff(Get(b, u))
  }

  /** The component set that defines exactly field `u`, to `n`. */
  function Only(u: FieldName, n: int): (r: Components)
    ensures Get(r, u) == Val(n)
    ensures forall w :: w != u ==> Get(r, w) == Undef
  {
    match u
    case Second => Empty.(second := Val(n))
    case Minute => Empty.(minute := Val(n))
    case Hour => Empty.(hour := Val(n))
    case Day => Empty.(day := Val(n))
    case Month => Empty.(month := Val(n))
    case Year => Empty.(year := Val(n))
  }

  /** Single-field sets are equal only for the same field and the same amount. */
  lemma OnlyInjective(u: FieldName, w: FieldName, n: int, m: int)
    ensures Only(u, n) == Only(w, m) <==> u == w && n == m
  {
  }

  /** The year, month and day fields of `c`; the other three undefined. This
      is the component request `[.year, .month, .day]`. */
  function DayFields(c: Components): (r: Components)
    ensures r.second == Undef && r.minute == Undef && r.hour == Undef
    ensures r.day == c.day && r.month == c.month && r.year == c.year
  {
    Empty.(day := c.day, month := c.month, year := c.year)
  }

  function CombineField(l: Field, r: Field, multiplier: int): Field
  {
    Val(Eff(l) + Eff(r) * multiplier)
  }

  /** Field-wise merge: each result field is eff(lhs) + eff(rhs) * multiplier,
      and every result field is defined, even where both inputs are undefined. */
  function Combine(lhs: Components, rhs: Components, multiplier: int): (r: Components)
    ensures AllDefined(r)
    ensures forall u :: Get(r, u) == Val(Eff(Get(lhs, u)) + Eff(Get(rhs, u)) * multiplier)
  {
    Components(
      CombineField(lhs.second, rhs.second, multiplier),
      CombineField(lhs.minute, rhs.minute, multiplier),
      CombineField(lhs.hour, rhs.hour, multiplier),
      CombineField(lhs.day, rhs.day, multiplier),
      CombineField(lhs.month, rhs.month, multiplier),
      CombineField(lhs.year, rhs.year, multiplier))
  }

  /** Binary `+` on component sets. */
  function Add(lhs: Components, rhs: Components): (r: Components)
    ensures AllDefined(r)
    ensures forall u :: Get(r, u) == Val(Eff(Get(lhs, u)) + Eff(Get(rhs, u)))
  {
    Combine(lhs, rhs, 1)
  }

  /** Binary `-` on component sets. */
  function Subtract(lhs: Components, rhs: Components): (r: Components)
    ensures AllDefined(r)
    ensures forall u :: Get(r, u) == Val(Eff(Get(lhs, u)) - Eff(Get(rhs, u)))
  {
    Combine(lhs, rhs, -1)
  }

  function NegateField(f: Field): Field
  {
    match f
    case Undef => Undef
    case Val(n) => Val(-n)
  }

  /** Prefix `-` on component sets: a defined field is negated, an undefined
      field stays undefined (it does not become a defined 0). */
  function Negate(c: Components): (r: Components)
    ensures forall u :: Get(r, u).Undef? <==> Get(c, u).Undef?
    ensures forall u :: Get(c, u).Val? ==> Get(r, u) == Val(-Get(c, u).v)
  {
    Components(
      NegateField(c.second),
      NegateField(c.minute),
      NegateField(c.hour),
      NegateField(c.day),
      NegateField(c.month),
      NegateField(c.year))
  }

  /** The fully defined set with the same effective values as `c`. */
  function Filled(c: Components): (r: Components)
    ensures AllDefined(r) && Equivalent(r, c)
  {
    Components(
      Val(Eff(c.second)),
      Val(Eff(c.minute)),
      Val(Eff(c.hour)),
      Val(Eff(c.day)),
      Val(Eff(c.month)),
      Val(Eff(c.year)))
  }

  /** `a + b == b + a`. */
  lemma AddCommutes(a: Components, b: Components)
    ensures Add(a, b) == Add(b, a)
  {
  }

  /** `(a + b) + c == a + (b + c)`. */
  lemma AddAssociates(a: Components, b: Components, c: Components)
    ensures Add(Add(a, b), c) == Add(a, Add(b, c))
  {
  }

  /** Adding the empty set only turns undefined fields into defined zeros. */
  lemma AddEmptyFills(a: Components)
    ensures Add(a, Empty) == Filled(a)
    ensures Add(Empty, a) == Filled(a)
  {
  }

  /** `a - a` has every field defined and equal to 0, whatever `a` leaves undefined. */
  lemma SubtractSelfIsZero(a: Components)
    ensures Subtract(a, a) == Zero
  {
  }

  /** `a + (-a)` has every field defined and equal to 0. */
  lemma AddNegationIsZero(a: Components)
    ensures Add(a, Negate(a)) == Zero
  {
  }

  /** `a - b == a + (-b)`: negation contributes the negated effective value. */
  lemma SubtractIsAddNegation(a: Components, b: Components)
    ensures Subtract(a, b) == Add(a, Negate(b))
  {
  }

  /** Negation is an involution, undefined fields included. */
  lemma NegateInvolution(a: Components)
    ensures Negate(Negate(a)) == a
  {
  }

  /** Negating the all-undefined set leaves it all undefined. */
  lemma NegateEmpty()
    ensures Negate(Empty) == Empty
  {
  }

  /** `-(a - b) == b - a`. */
  lemma NegateDifference(a: Components, b: Components)
    ensures Negate(Subtract(a, b)) == Subtract(b, a)
  {
  }

  /** `(a + b) - b` gives back `a`, with its undefined fields now defined zeros. */
  lemma SubtractUndoesAdd(a: Components, b: Components)
    ensures Subtract(Add(a, b), b) == Filled(a)
    ensures Equivalent(Subtract(Add(a, b), b), a)
  {
  }

  /** A combination never keeps an undefined field, so it is never the all-undefined set. */
  lemma CombineNeverEmpty(a: Components, b: Components, m: int)
    ensures Combine(a, b, m) != Empty
  {
  }
}

=== FILE: converters.dfy ===
/** The integer-to-components converters (`5.days`, `3.hours`, ...): each
    builds a component set with exactly one field defined. Every plural form
    has a singular alias producing the same set; a week is seven days. */
module Converters {

  import C = Components

  function Seconds(n: int): (r: C.Components)
    ensures C.Get(r, C.Second) == C.Val(n)
    ensures forall u :: u != C.Second ==> C.Get(r, u) == C.Undef
  {
    C.Only(C.Second, n)
  }

  function Second(n: int): (r: C.Components)
    ensures r == Seconds(n)
  {
    Seconds(n)
  }

  function Minutes(n: int): (r: C.Components)
    ensures C.Get(r, C.Minute) == C.Val(n)
    ensures forall u :: u != C.Minute ==> C.Get(r, u) == C.Undef
  {
    C.Only(C.Minute, n)
  }

  function Minute(n: int): (r: C.Components)
    ensures r == Minutes(n)
  {
    Minutes(n)
  }

  function Hours(n: int): (r: C.Components)
    ensures C.Get(r, C.Hour) == C.Val(n)
    ensures forall u :: u != C.Hour ==> C.Get(r, u) == C.Undef
  {
    C.Only(C.Hour, n)
  }

  function Hour(n: int): (r: C.Components)
    ensures r == Hours(n)
  {
    Hours(n)
  }

  function Days(n: int): (r: C.Components)
    ensures C.Get(r, C.Day) == C.Val(n)
    ensures forall u :: u != C.Day ==> C.Get(r, u) == C.Undef
  {
    C.Only(C.Day, n)
  }

  function Day(n: int): (r: C.Components)
    ensures r == Days(n)
  {
    Days(n)
  }

  /** A week is carried in the day field as seven days. */
  function Weeks(n: int): (r: C.Components)
    ensures C.Get(r, C.Day) == C.Val(7 * n)
    ensures forall u :: u != C.Day ==> C.Get(r, u) == C.Undef
  {
    C.Only(C.Day, 7 * n)
  }

  function Week(n: int): (r: C.Components)
    ensures r == Weeks(n)
  {
    Weeks(n)
  }

  function Months(n: int): (r: C.Components)
    ensures C.Get(r, C.Month) == C.Val(n)
    ensures forall u :: u != C.Month ==> C.Get(r, u) == C.Undef
  {
    C.Only(C.Month, n)
  }

  function Month(n: int): (r: C.Components)
    ensures r == Months(n)
  {
    Months(n)
  }

  function Years(n: int): (r: C.Components)
    ensures C.Get(r, C.Year) == C.Val(n)
    ensures forall u :: u != C.Year ==> C.Get(r, u) == C.Undef
  {
    C.Only(C.Year, n)
  }

  function Year(n: int): (r: C.Components)
    ensures r == Years(n)
  {
    Years(n)
  }

  /** `n.weeks` is the same set as `(7 * n).days`. */
  lemma WeeksAreSevenDays(n: int)
    ensures Weeks(n) == Days(7 * n)
  {
  }

  /** The plural converter for a component field. */
  function ConverterOf(u: C.FieldName, n: int): (r: C.Components)
    ensures C.Get(r, u) == C.Val(n)
  {
    match u
    case Second => Seconds(n)
    case Minute => Minutes(n)
    case Hour => Hours(n)
    case Day => Days(n)
    case Month => Months(n)
    case Year => Years(n)
  }

  /** The six plural converters give the same set only for the same unit and
      the same amount. (`weeks` is left out on purpose: it is `days` in disguise.) */
  lemma ConvertersAreDistinct(u: C.FieldName, w: C.FieldName, n: int, m: int)
    ensures ConverterOf(u, n) == ConverterOf(w, m) <==> u == w && n == m
  {
  }

  /** Adding `a` days to `b` days gives `a + b` days in effect, but the sum
      has all six fields defined, so it is not the same set as `(a + b).days`. */
  lemma AddDays(a: int, b: int)
    ensures C.Equivalent(C.Add(Days(a), Days(b)), Days(a + b))
    ensures C.Add(Days(a), Days(b)) != Days(a + b)
  {
  }

  /** Negating a single-unit set negates its amount: `-(3.days) == (-3).days`. */
  lemma NegateDays(n: int)
    ensures C.Negate(Days(n)) == Days(-n)
    ensures C.Negate(Weeks(n)) == Weeks(-n)
  {
  }
}

=== FILE: dates.dfy ===
/** The operations on instants: adding and subtracting component sets,
    truncating to the start of the day, the order-independent
    year/month/day difference, offsetting by whole days, the seven
    single-unit deltas and the elapsed-time label built on them.

    Every calendar computation goes through a `Calendar` parameter. Where the
    Swift code force-unwraps a calendar result that may be missing, the model
    returns an `Option` and `None` stands for that failure. */
module Dates {

  import opened Wrappers
  import C = Components
  import V = Converters
  import H = HostCalendar
  import L = Label

  /** `date + components`. */
  function Plus(cal: H.Calendar, d: H.Instant, c: C.Components): Option<H.Instant>
  {
    cal.byAdding(c, d)
  }

  /** `components + date`, defined as `date + components`. */
  function PlusFlipped(cal: H.Calendar, c: C.Components, d: H.Instant): Option<H.Instant>
  {
    Plus(cal, d, c)
  }

  /** `date - components`, defined as `date + (-components)`. */
  function Minus(cal: H.Calendar, d: H.Instant, c: C.Components): Option<H.Instant>
  {
    Plus(cal, d, C.Negate(c))
  }

  /** The start of the day of `d`: only its year, month and day fields,
      recomposed; hour, minute and second are not passed on. */
  function Normalize(cal: H.Calendar, d: H.Instant): Option<H.Instant>
  {
    cal.compose(H.DayOf(cal, d))
  }

  /** The year/month/day difference between the days of `a` and `b`, always
      measured from the earlier normalized instant to the later one. Only the
      year, month and day fields are requested, so the others stay undefined. */
  function Diff(cal: H.Calendar, a: H.Instant, b: H.Instant): (r: Option<C.Components>)
    ensures r.Some? <==> Normalize(cal, a).Some? && Normalize(cal, b).Some?
    ensures r.Some? ==>
      var na, nb := Normalize(cal, a).value, Normalize(cal, b).value;
      r.value == C.DayFields(cal.ymdDelta(H.Earlier(na, nb), H.Later(na, nb)))
    ensures r.Some? ==> r.value.hour == C.Undef && r.value.minute == C.Undef && r.value.second == C.Undef
  {
    match (Normalize(cal, a), Normalize(cal, b))
    case (Some(s), Some(e)) =>
      if H.Before(s, e) then Some(C.DayFields(cal.ymdDelta(s, e)))
      else Some(C.DayFields(cal.ymdDelta(e, s)))
    case _ => None
  }

  /** `n` whole days after the start of the day of `d`. */
  function Offset(cal: H.Calendar, d: H.Instant, n: int): Option<H.Instant>
  {
    match Normalize(cal, d)
    case None => None
    case Some(m) => Plus(cal, m, V.Days(n))
  }

  /** Whole units `u` from `date` to `self`: positive when `self` is later. */
  function UnitsFrom(cal: H.Calendar, u: H.Unit, self: H.Instant, date: H.Instant): int
  {
    cal.unitDelta(u, date, self)
  }

  function YearsFrom(cal: H.Calendar, self: H.Instant, date: H.Instant): int
  {
    UnitsFrom(cal, H.Year, self, date)
  }

  function MonthsFrom(cal: H.Calendar, self: H.Instant, date: H.Instant): int
  {
    UnitsFrom(cal, H.Month, self, date)
  }

  function WeeksFrom(cal: H.Calendar, self: H.Instant, date: H.Instant): int
  {
    UnitsFrom(cal, H.WeekOfYear, self, date)
  }

  function DaysFrom(cal: H.Calendar, self: H.Instant, date: H.Instant): int
  {
    UnitsFrom(cal, H.Day, self, date)
  }

  function HoursFrom(cal: H.Calendar, self: H.Instant, date: H.Instant): int
  {
    UnitsFrom(cal, H.Hour, self, date)
  }

  function MinutesFrom(cal: H.Calendar, self: H.Instant, date: H.Instant): int
  {
    UnitsFrom(cal, H.Minute, self, date)
  }

  function SecondsFrom(cal: H.Calendar, self: H.Instant, date: H.Instant): int
  {
    UnitsFrom(cal, H.Second, self, date)
  }

  /** The seven single-unit deltas from `date` to `self`. */
  function DeltasFrom(cal: H.Calendar, self: H.Instant, date: H.Instant): (ds: L.Deltas)
    ensures forall u :: L.DeltaOf(ds, u) == cal.unitDelta(u, date, self)
  {
    L.Deltas(
      YearsFrom(cal, self, date),
      MonthsFrom(cal, self, date),
      WeeksFrom(cal, self, date),
      DaysFrom(cal, self, date),
      HoursFrom(cal, self, date),
      MinutesFrom(cal, self, date),
      SecondsFrom(cal, self, date))
  }

  /** The elapsed-time label from `date` to `self`: empty exactly when no
      unit shows `self` strictly after `date`. */
  function OffsetFrom(cal: H.Calendar, self: H.Instant, date: H.Instant): (r: string)
    ensures r == "" <==> forall u :: cal.unitDelta(u, date, self) <= 0
  {
    var ds := DeltasFrom(cal, self, date);
    assert L.NonePositive(ds) <==> forall u :: L.DeltaOf(ds, u) <= 0 by {
      if !L.NonePositive(ds) {
        var i :| 0 <= i < |L.Cascade| && L.DeltaOf(ds, L.Cascade[i]) > 0;
      } else {
        L.CascadeCoversAll(ds);
      }
    }
    L.OffsetLabel(ds)
  }

  /** `components + date == date + components`. */
  lemma PlusCommutes(cal: H.Calendar, c: C.Components, d: H.Instant)
    ensures PlusFlipped(cal, c, d) == Plus(cal, d, c)
  {
  }

  /** `date - components == date + (-components)`. */
  lemma MinusAddsNegation(cal: H.Calendar, d: H.Instant, c: C.Components)
    ensures Minus(cal, d, c) == Plus(cal, d, C.Negate(c))
  {
  }

  /** Subtracting a negated set adds the set itself: `d - (-c) == d + c`,
      undefined fields included. */
  lemma MinusNegationIsPlus(cal: H.Calendar, d: H.Instant, c: C.Components)
    ensures Minus(cal, d, C.Negate(c)) == Plus(cal, d, c)
  {
  }

  /** Subtracting a difference adds the reversed difference: `d - (a - b) == d + (b - a)`. */
  lemma MinusDifference(cal: H.Calendar, d: H.Instant, a: C.Components, b: C.Components)
    ensures Minus(cal, d, C.Subtract(a, b)) == Plus(cal, d, C.Subtract(b, a))
  {
  }

  /** Normalizing twice is normalizing once, for a calendar whose start of
      day lies on the same day. */
  lemma NormalizeIdempotent(cal: H.Calendar, d: H.Instant)
    requires H.StartOfDayStable(cal)
    ensures Normalize(cal, d).Some? ==> Normalize(cal, Normalize(cal, d).value) == Normalize(cal, d)
  {
  }

  /** Normalizing drops the time of day: two instants whose year, month and
      day fields agree normalize to the same instant, whatever their hour,
      minute and second. */
  lemma NormalizeIgnoresTimeOfDay(cal: H.Calendar, a: H.Instant, b: H.Instant)
    requires C.DayFields(cal.fieldsOf(a)) == C.DayFields(cal.fieldsOf(b))
    ensures Normalize(cal, a) == Normalize(cal, b)
  {
  }

  /** Offsetting drops the time of day: instants on the same day have the same offsets. */
  lemma OffsetIgnoresTimeOfDay(cal: H.Calendar, a: H.Instant, b: H.Instant, n: int)
    requires C.DayFields(cal.fieldsOf(a)) == C.DayFields(cal.fieldsOf(b))
    ensures Offset(cal, a, n) == Offset(cal, b, n)
  {
  }

  /** The difference does not depend on argument order. */
  lemma DiffSymmetric(cal: H.Calendar, a: H.Instant, b: H.Instant)
    ensures Diff(cal, a, b) == Diff(cal, b, a)
  {
  }

  /** Two instants on the same day differ by the calendar's delta from that day to itself. */
  lemma DiffSameDay(cal: H.Calendar, a: H.Instant, b: H.Instant)
    requires Normalize(cal, a) == Normalize(cal, b) && Normalize(cal, a).Some?
    ensures Diff(cal, a, b) == Some(C.DayFields(cal.ymdDelta(Normalize(cal, a).value, Normalize(cal, a).value)))
  {
  }

  /** For a calendar with no year/month/day delta from an instant to itself,
      two instants on the same day differ by nothing: year, month and day
      are defined zeros and the finer fields undefined. */
  lemma DiffSameDayIsZero(cal: H.Calendar, a: H.Instant, b: H.Instant)
    requires H.NoYmdDeltaToSelf(cal)
    requires Normalize(cal, a) == Normalize(cal, b) && Normalize(cal, a).Some?
    ensures Diff(cal, a, b) == Some(C.DayFields(C.Zero))
  {
  }

  /** For a calendar whose forward deltas are non-negative, every field of
      the difference is non-negative, whichever argument is later. */
  lemma DiffNonNegative(cal: H.Calendar, a: H.Instant, b: H.Instant)
    requires H.ForwardDeltasNonNegative(cal)
    ensures Diff(cal, a, b).Some? ==> H.NonNegative(Diff(cal, a, b).value)
  {
    if Diff(cal, a, b).Some? {
      var na, nb := Normalize(cal, a).value, Normalize(cal, b).value;
      var full := cal.ymdDelta(H.Earlier(na, nb), H.Later(na, nb));
      assert H.NonNegative(full);
      forall u: C.FieldName ensures C.Eff(C.Get(C.DayFields(full), u)) >= 0 {
        assert C.Eff(C.Get(full, u)) >= 0;
      }
    }
  }

  /** Offsetting the start of the day gives the same instant as offsetting
      the instant itself. */
  lemma OffsetOfNormalized(cal: H.Calendar, d: H.Instant, n: int)
    requires H.StartOfDayStable(cal)
    requires Normalize(cal, d).Some?
    ensures Offset(cal, Normalize(cal, d).value, n) == Offset(cal, d, n)
  {
  }

  /** An instant is no time at all after itself, so its label against itself is empty. */
  lemma OffsetFromSelf(cal: H.Calendar, d: H.Instant)
    requires H.NoDeltaToSelf(cal)
    ensures OffsetFrom(cal, d, d) == ""
  {
  }

  /** Under the sign law, when `date` is not before `self` no unit shows
      `self` strictly after `date`, so the label is empty: only an instant
      strictly later than `date` is labelled. */
  lemma OffsetFromNotLater(cal: H.Calendar, self: H.Instant, date: H.Instant)
    requires H.BackwardDeltasNonPositive(cal)
    requires !H.Before(date, self)
    ensures OffsetFrom(cal, self, date) == ""
  {
  }

  /** The label from `date` to `self` is the coarsest positive single-unit
      delta rendered with its unit's letter, and it reads back as that delta
      and unit. */
  lemma OffsetFromReportsCoarsest(cal: H.Calendar, self: H.Instant, date: H.Instant, i: int)
    requires L.CoarsestPositive(DeltasFrom(cal, self, date), i)
    ensures OffsetFrom(cal, self, date) ==
      L.Render(cal.unitDelta(L.Cascade[i], date, self), L.Cascade[i])
    ensures L.ParseLabel(OffsetFrom(cal, self, date)) ==
      Some((cal.unitDelta(L.Cascade[i], date, self), L.Cascade[i]))
  {
    L.OffsetLabelIsCoarsest(DeltasFrom(cal, self, date), i);
    L.LabelRoundTrip(DeltasFrom(cal, self, date), i);
  }
}

=== FILE: decimal.dfy ===
/** Decimal rendering of an integer, as string interpolation of an `Int`
    produces it (an optional '-' followed by digits without leading zeros),
    and the matching parser. The two are proved inverse to each other. */
module Decimal {

  import opened Wrappers

  predicate IsDigit(c: char)
  {
    '0' <= c <= '9'
  }

  predicate AllDigits(s: string)
  {
    forall i :: 0 <= i < |s| ==> IsDigit(s[i])
  }

  /** A non-empty run of digits with no leading zero, unless it is "0" itself. */
  predicate IsCanonical(s: string)
  {
    1 <= |s| && AllDigits(s) && (s[0] == '0' ==> |s| == 1)
  }

  function DigitValue(c: char): (d: nat)
    requires IsDigit(c)
    ensures d < 10
  {
    (c as int) - ('0' as int)
  }

  function DigitChar(d: nat): (c: char)
    requires d < 10
    ensures IsDigit(c) && DigitValue(c) == d
  {
    (('0' as int) + d) as char
  }

  /** The digits of `n`, most significant first. */
  function NatToString(n: nat): (s: string)
    ensures IsCanonical(s)
    ensures s[0] == '0' <==> n == 0
    decreases n
  {
    if n < 10 then [DigitChar(n)] else NatToString(n / 10) + [DigitChar(n % 10)]
  }

  /** The decimal rendering of an integer: a '-' sign for negative values. */
  function IntToString(n: int): (s: string)
    ensures 1 <= |s|
    ensures s[0] == '-' <==> n < 0
    ensures n >= 0 ==> IsCanonical(s)
  {
    if n < 0 then "-" + NatToString(-n) else NatToString(n)
  }

  /** The value of a run of digits. */
  function DigitsValue(s: string): nat
    requires AllDigits(s)
    decreases |s|
  {
    if |s| == 0 then 0 else DigitsValue(s[..|s| - 1]) * 10 + DigitValue(s[|s| - 1])
  }

  /** Reads back a rendering: `None` for anything `IntToString` cannot produce. */
  function ParseInt(s: string): Option<int>
  {
    if 2 <= |s| && s[0] == '-' && IsCanonical(s[1..]) && s[1] != '0' then Some(-(DigitsValue(s[1..]) as int))
    else if IsCanonical(s) then Some(DigitsValue(s))
    else None
  }

  lemma {:induction false} NatToStringValue(n: nat)
    ensures DigitsValue(NatToString(n)) == n
    decreases n
  {
    if n >= 10 {
      var s := NatToString(n);
      assert s[..|s| - 1] == NatToString(n / 10);
      NatToStringValue(n / 10);
    }
  }

  /** A run of digits that does not start with '0' has a positive value. */
  lemma {:induction false} LeadingNonZeroIsPositive(s: string)
    requires 1 <= |s| && AllDigits(s) && s[0] != '0'
    ensures DigitsValue(s) > 0
    decreases |s|
  {
    if |s| > 1 {
      var p := s[..|s| - 1];
      assert p[0] == s[0];
      LeadingNonZeroIsPositive(p);
    }
  }

  lemma {:induction false} ValueToString(s: string)
    requires IsCanonical(s)
    ensures NatToString(DigitsValue(s)) == s
    decreases |s|
  {
    if |s| == 1 {
      assert DigitChar(DigitValue(s[0])) == s[0];
    } else {
      var p := s[..|s| - 1];
      var d := DigitValue(s[|s| - 1]);
      assert p[0] == s[0];
      LeadingNonZeroIsPositive(p);
      ValueToString(p);
      var v := DigitsValue(p);
      assert DigitsValue(s) == v * 10 + d;
      assert (v * 10 + d) / 10 == v && (v * 10 + d) % 10 == d;
      assert DigitChar(d) == s[|s| - 1];
      assert s == p + [s[|s| - 1]];
    }
  }

  /** Parsing a rendering gives back the integer rendered. */
  lemma IntToStringParses(n: int)
    ensures ParseInt(IntToString(n)) == Some(n)
  {
    var s := IntToString(n);
    if n < 0 {
      assert s[1..] == NatToString(-n);
      NatToStringValue(-n);
    } else {
      NatToStringValue(n);
    }
  }

  /** Whatever parses is exactly the rendering of the integer it parses to. */
  lemma ParseIntRenders(s: string, n: int)
    requires ParseInt(s) == Some(n)
    ensures IntToString(n) == s
  {
    if 2 <= |s| && s[0] == '-' && IsCanonical(s[1..]) && s[1] != '0' {
      LeadingNonZeroIsPositive(s[1..]);
      ValueToString(s[1..]);
      assert s == "-" + s[1..];
    } else {
      ValueToString(s);
    }
  }

  /** Rendering is injective: distinct integers render differently. */
  lemma IntToStringInjective(a: int, b: int)
    requires IntToString(a) == IntToString(b)
    ensures a == b
  {
    IntToStringParses(a);
    IntToStringParses(b);
  }
}

=== FILE: label.dfy ===
/** The elapsed-time label: given the seven whole-unit deltas between two
    instants, report only the coarsest strictly positive one, as its decimal
    value followed by a unit letter, or the empty string when none is positive. */
module Label {

  import opened Wrappers
  import D = Decimal
  import H = HostCalendar

  /** The seven single-unit deltas, each measured independently. */
  datatype Deltas = Deltas(
    years: int,
    months: int,
    weeks: int,
    days: int,
    hours: int,
    minutes: int,
    seconds: int)

  function DeltaOf(ds: Deltas, u: H.Unit): int
  {
    match u
    case Year => ds.years
    case Month => ds.months
    case WeekOfYear => ds.weeks
    case Day => ds.days
    case Hour => ds.hours
    case Minute => ds.minutes
    case Second => ds.seconds
  }

  /** The units from coarsest to finest, in the order they are tried. */
  const Cascade: seq<H.Unit> := [H.Year, H.Month, H.WeekOfYear, H.Day, H.Hour, H.Minute, H.Second]

  /** Unit letters; months are a capital 'M', minutes a lower-case 'm'. */
  function Letter(u: H.Unit): char
  {
    match u
    case Year => 'y'
    case Month => 'M'
    case WeekOfYear => 'w'
    case Day => 'd'
    case Hour => 'h'
    case Minute => 'm'
    case Second => 's'
  }

  function UnitOfLetter(c: char): (r: Option<H.Unit>)
    ensures r.Some? ==> Letter(r.value) == c
  {
    if c == 'y' then Some(H.Year)
    else if c == 'M' then Some(H.Month)
    else if c == 'w' then Some(H.WeekOfYear)
    else if c == 'd' then Some(H.Day)
    else if c == 'h' then Some(H.Hour)
    else if c == 'm' then Some(H.Minute)
    else if c == 's' then Some(H.Second)
    else None
  }

  /** `n` rendered in decimal, then the letter of `u`. */
  function Render(n: int, u: H.Unit): (r: string)
    ensures 2 <= |r| && r[|r| - 1] == Letter(u)
  {
    D.IntToString(n) + [Letter(u)]
  }

  /** Position `i` of the cascade holds a positive delta and every coarser
      unit's delta is zero or negative. */
  ghost predicate CoarsestPositive(ds: Deltas, i: int)
  {
    && 0 <= i < |Cascade|
    && DeltaOf(ds, Cascade[i]) > 0
    && forall j :: 0 <= j < i ==> DeltaOf(ds, Cascade[j]) <= 0
  }

  /** No delta of the cascade is positive. */
  ghost predicate NonePositive(ds: Deltas)
  {
    forall i :: 0 <= i < |Cascade| ==> DeltaOf(ds, Cascade[i]) <= 0
  }

  /** The cascade visits all seven deltas: none is positive exactly when each
      of the seven fields is zero or negative. */
  lemma {:induction false} CascadeCoversAll(ds: Deltas)
    ensures NonePositive(ds) <==>
      ds.years <= 0 && ds.months <= 0 && ds.weeks <= 0 && ds.days <= 0 &&
      ds.hours <= 0 && ds.minutes <= 0 && ds.seconds <= 0
  {
    if ds.years <= 0 && ds.months <= 0 && ds.weeks <= 0 && ds.days <= 0 &&
       ds.hours <= 0 && ds.minutes <= 0 && ds.seconds <= 0
    {
      forall i | 0 <= i < |Cascade|
        ensures DeltaOf(ds, Cascade[i]) <= 0
      {
        assert i == 0 || i == 1 || i == 2 || i == 3 || i == 4 || i == 5 || i == 6;
      }
    } else {
      assert DeltaOf(ds, Cascade[0]) == ds.years && DeltaOf(ds, Cascade[1]) == ds.months;
      assert DeltaOf(ds, Cascade[2]) == ds.weeks && DeltaOf(ds, Cascade[3]) == ds.days;
      assert DeltaOf(ds, Cascade[4]) == ds.hours && DeltaOf(ds, Cascade[5]) == ds.minutes;
      assert DeltaOf(ds, Cascade[6]) == ds.seconds;
    }
  }

  /** The label: empty exactly when no delta is positive; otherwise the
      rendering of the first positive delta in cascade order (see
      `OffsetLabelIsCoarsest`). */
  function OffsetLabel(ds: Deltas): (r: string)
    ensures r == "" <==> NonePositive(ds)
  {
    CascadeCoversAll(ds);
    if ds.years > 0 then Render(ds.years, H.Year)
    else if ds.months > 0 then Render(ds.months, H.Month)
    else if ds.weeks > 0 then Render(ds.weeks, H.WeekOfYear)
    else if ds.days > 0 then Render(ds.days, H.Day)
    else if ds.hours > 0 then Render(ds.hours, H.Hour)
    else if ds.minutes > 0 then Render(ds.minutes, H.Minute)
    else if ds.seconds > 0 then Render(ds.seconds, H.Second)
    else ""
  }

  /** The label reports the coarsest positive delta, so no finer unit is ever
      reported once a coarser one is positive. */
  lemma {:induction false} OffsetLabelIsCoarsest(ds: Deltas, i: int)
    requires CoarsestPositive(ds, i)
    ensures OffsetLabel(ds) == Render(DeltaOf(ds, Cascade[i]), Cascade[i])
  {
    assert i == 0 || i == 1 || i == 2 || i == 3 || i == 4 || i == 5 || i == 6;
    if i >= 1 { assert DeltaOf(ds, Cascade[0]) <= 0; }
    if i >= 2 { assert DeltaOf(ds, Cascade[1]) <= 0; }
    if i >= 3 { assert DeltaOf(ds, Cascade[2]) <= 0; }
    if i >= 4 { assert DeltaOf(ds, Cascade[3]) <= 0; }
    if i >= 5 { assert DeltaOf(ds, Cascade[4]) <= 0; }
    if i >= 6 { assert DeltaOf(ds, Cascade[5]) <= 0; }
  }

  /** When some delta is positive, some position is the coarsest positive one. */
  lemma {:induction false} CoarsestPositiveExists(ds: Deltas)
    requires !NonePositive(ds)
    ensures exists i :: CoarsestPositive(ds, i)
  {
    var k :| 0 <= k < |Cascade| && DeltaOf(ds, Cascade[k]) > 0;
    var i := 0;
    while DeltaOf(ds, Cascade[i]) <= 0
      invariant 0 <= i <= k
      invariant forall j :: 0 <= j < i ==> DeltaOf(ds, Cascade[j]) <= 0
      decreases k - i
    {
      i := i + 1;
    }
    assert CoarsestPositive(ds, i);
  }

  /** Reads a label back into its amount and unit. */
  function ParseLabel(s: string): Option<(int, H.Unit)>
  {
    if |s| == 0 then None
    else match UnitOfLetter(s[|s| - 1])
      case None => None
      case Some(u) =>
        match D.ParseInt(s[..|s| - 1])
        case None => None
        case Some(n) => Some((n, u))
  }

  /** The unit letters are pairwise distinct, 'M' and 'm' included. */
  lemma LettersDistinct(u: H.Unit, w: H.Unit)
    ensures Letter(u) == Letter(w) <==> u == w
  {
  }

  /** Exactly one position of the cascade is the coarsest positive one, when any delta is positive. */
  lemma CoarsestPositiveUnique(ds: Deltas, i: int, j: int)
    requires CoarsestPositive(ds, i) && CoarsestPositive(ds, j)
    ensures i == j
  {
  }

  lemma {:induction false} RenderParses(n: int, u: H.Unit)
    ensures ParseLabel(Render(n, u)) == Some((n, u))
  {
    var s := Render(n, u);
    assert s[..|s| - 1] == D.IntToString(n);
    D.IntToStringParses(n);
  }

  /** A non-empty label names the coarsest positive delta: reading it back
      gives that unit and that amount. */
  lemma LabelRoundTrip(ds: Deltas, i: int)
    requires CoarsestPositive(ds, i)
    ensures ParseLabel(OffsetLabel(ds)) == Some((DeltaOf(ds, Cascade[i]), Cascade[i]))
  {
    OffsetLabelIsCoarsest(ds, i);
    RenderParses(DeltaOf(ds, Cascade[i]), Cascade[i]);
  }

  /** Any string that parses as a label is the rendering of what it parses to. */
  lemma ParseLabelRenders(s: string, n: int, u: H.Unit)
    requires ParseLabel(s) == Some((n, u))
    ensures Render(n, u) == s
  {
    D.ParseIntRenders(s[..|s| - 1], n);
    assert s == s[..|s| - 1] + [s[|s| - 1]];
  }

  /** One hour apart: an hour delta of 1 with no coarser positive delta reads "1h". */
  lemma OneHourScenario(y: int, mo: int, w: int, d: int, minutes: int, seconds: int)
    requires y <= 0 && mo <= 0 && w <= 0 && d <= 0
    ensures OffsetLabel(Deltas(y, mo, w, d, 1, minutes, seconds)) == "1h"
  {
  }

  /** A positive year delta wins over every finer unit, whatever their values. */
  lemma YearsWin(ds: Deltas)
    requires ds.years > 0
    ensures OffsetLabel(ds) == Render(ds.years, H.Year)
    ensures ParseLabel(OffsetLabel(ds)) == Some((ds.years, H.Year))
  {
    assert CoarsestPositive(ds, 0);
    LabelRoundTrip(ds, 0);
  }
}

=== FILE: wrappers.dfy ===
/** An optional value. Used wherever the calendar library may fail to produce
    an instant (the points where the Swift code force-unwraps), and for the
    result of parsing. */
module Wrappers {

  datatype Option<+T> = None | Some(value: T)
}
